=== FILE: README.md ===
# mlb-hit-helper-scraper, data layer in Dafny

The scraper reads today's MLB schedule, picks the top batters of every team
that plays, reads each batter's last ten games, computes a "moving average"
(mean hits per game, rounded to three decimals), ranks the batters by it and
serialises the batters, each with its games, as dicts for the JSON file and
the CMS. `Team.to_dict` is modelled too, although nothing in the pipeline
calls it.
This project models the pure part of that pipeline and proves its contracts:

- `BattersGames` (batters_game.dfy): the per-game record and its `to_dict`.
- `Batters` (batter.dfy): the batter, `add_games`, the moving average, `to_dict`.
- `Teams` (team.dfy): the team, `add_players`, `get_attributes`, `to_dict`.
- `TeamsScraper` (teams_scraper.dfy): `_clean_id`, `_check_if_team_is_playing`,
  the directory filter of `_get_teams_json`, `_add_batters` and the loop of
  `get_batters`; `_get_player_rows` is `Seqs.PrefixSlice`.
- `GamesTodayScraper` (games_today_scraper.dfy): the "D-backs" normalisation,
  `_add_to_teams` and the collect-and-sort of `get_games`.
- `StatsScraper` (stats_scraper.dfy): `_get_date`, `_get_opponent`, the
  `_get_game_rows` as called with 10 (`RecentRows`), the row-to-game loop
  and the ranking of `get_stats`.
- Support modules: `Text` (Python's `str.split`, `str.find`, `int()` on a
  cell, string ordering), `Seqs` (filtering, `xs[0:n]`), `Sorting` (a stable
  insertion sort standing for `list.sort`), `Dicts` (insertion-ordered dict
  values) and `Options`.

Modelling choices:

- The browser is abstracted away. A table row is a record of the texts and
  attributes the source reads from it (`PlayerRow`, `GameRow`, `GameCells`).
  The pages a scraper would open are function parameters: `roster` maps a
  team code to its batting-table rows and `gameLog` maps a player id to the
  rows of their game log. Whether the schedule shows today's date is the
  boolean `hasGames`.
- A Python exception that ends the run is `None` of `Options.Option`. In the
  modelled code the only such exception is `int()` failing on an H or AB cell.
- The moving average is an integer number of thousandths (`1250` is 1.25).
  Its contract is "nearest thousandth": `2 * |1000 * hits - n * m| <= n`.
- Dicts are lists of `(key, value)` fields, because key order is part of
  what `to_dict` promises and of what `json.dump` writes. The keys the
  records use form the enumeration `Dicts.Key`; `Dicts.KeyText` gives each
  key's JSON text ("team_code", "at_bats", ...), and different keys have
  different texts. Each record states the texts of its keys, in order, as
  its `to_dict` writes them (`GameKeyTexts`, `BatterKeyTexts`,
  `TeamKeyTexts`, `EntryKeyTexts`).
- Deviation from the source: `Batter.games`, `Team.batters`,
  `TeamsScraper._batters`, `StatsScraper._batters` and `GamesTodayScraper._teams`
  are class-level lists in Python, shared by all instances until an instance
  assigns its own. Here every record owns its sequence, and a new batter,
  team or scraper starts with an empty one (`NewBatter`, `NewTeam`,
  `NewTeamsScraper`, `NewGamesTodayScraper`, `NewStatsScraper`). In the
  source, a second `TeamsScraper` or `GamesTodayScraper` in the same process
  would start with the first one's batters or teams. The model's
  `GetBatters` and `GetGames` still take the scraper's current list as
  input, so two calls on one scraper accumulate as they do in Python, as
  long as no `get_stats` runs between them (see `StatsScraper.GetStats`
  under "Left out").

## Model

| member | source | states |
|---|---|---|
| `BattersGames.ToDict` | components/batters_game.py:25-31 | the dict has exactly the keys date, team_played, hits, at_bats in that order, and each key maps to the stored field |
| `BattersGames.RoundTrip` | components/batters_game.py:7-31 | reading a game back from its dict by key gives the same game, so serialisation loses nothing |
| `BattersGames.GameKeyTexts` | components/batters_game.py:26-31 | the key texts are date, team_played, hits, at_bats, in that order |
| `Batters.NewBatter` | components/batter.py:12-21 | a new batter has the given id and name, the four team fields of the directory entry, no games and an average of 0 |
| `Batters.UrlInfo` | components/batter.py:32-33 | the page lookup tuple is (id, name, team_name) |
| `Batters.RoundDiv` | components/batter.py:50 | the quotient is rounded to the nearest integer: within one half of the exact ratio |
| `Batters.MovingAverage` | components/batter.py:42-52 | 0 without games; otherwise the nearest thousandth to total hits divided by number of games |
| `Batters.CalculateMovingAverage` | components/batter.py:42-52 | the one-pass sum of hits followed by the division gives the moving average |
| `Batters.MovingAverageBounds` | components/batter.py:43-50 | with at least one game: if every game's hits lie in [lo, hi], the average lies in [lo, hi] (with no games the average is 0 whatever the bounds) |
| `Batters.MovingAverageNonNegative` | components/batter.py:43-52 | non-negative hit counts give a non-negative average, also with no games |
| `Batters.RoundingUniqueUpToTenGames` | components/batter.py:50 | with 1 to 10 games any value within half a thousandth of the mean is the model's value, so the tie rule never matters |
| `Batters.MovingAverageExample` | components/batter.py:42-50 | hits 1, 0, 2, 1 give an average of 1.000 |
| `Batters.AddGames` | components/batter.py:35-40 | the games become exactly the argument, the average is recomputed from them, and nothing else changes |
| `Batters.AddGamesReplaces` | components/batter.py:35-37 | games added before are forgotten: the second call alone decides the result |
| `Batters.AddGamesIdempotent` | components/batter.py:35-37 | adding the same games twice is the same as adding them once |
| `Batters.ToDict` | components/batter.py:54-64 | eight keys in the order id, name, team_code, team_name, primary_color, secondary_color, moving_average, games; the scalars map to the fields and the games list is the element-wise game dict, same length and order |
| `Batters.BatterKeyTexts` | components/batter.py:55-64 | the key texts are id, name, team_code, team_name, primary_color, secondary_color, moving_average, games, in that order |
| `Batters.GamesListRoundTrip` | components/batter.py:63 | the serialised game list reads back to the same games |
| `Batters.RoundTrip` | components/batter.py:54-64 | reading a batter back from its dict gives the same batter, games included |
| `Teams.NewTeam` | components/team.py:9-15 | a new team's attributes are the constructor arguments and it has no batters |
| `Teams.Attributes` | components/team.py:29-30 | the attribute tuple is the team code, the name, the primary and the secondary colour, in that order |
| `Teams.AddPlayers` | components/team.py:20-24 | the batters become exactly the argument, so `get_batters` returns it; the attributes are unchanged |
| `Teams.AddPlayersReplaces` | components/team.py:20-21 | players added before are forgotten |
| `Teams.BattersListRoundTrip` | components/team.py:38 | the serialised batter list reads back to the same batters, in order |
| `Teams.ToDict` | components/team.py:32-39 | five keys in the order team_code, name, primary_color, secondary_color, batters, mapped to the stored values |
| `Teams.TeamKeyTexts` | components/team.py:33-39 | the key texts are team_code, name, primary_color, secondary_color, batters, in that order |
| `Teams.RoundTrip` | components/team.py:32-39 | reading a team back from its dict gives the same team and batters |
| `Text.Split` | scrapers/teams_scraper.py:118 | `str.split` with one separator: at least one piece, no piece contains the separator, joining with it gives the input back |
| `Text.SplitUnique` | scrapers/teams_scraper.py:118 | any separator-free list of pieces that joins to the string is its split |
| `Text.LastField` | scrapers/teams_scraper.py:118 | `split(sep)[-1]` is the separator-free suffix that follows the last separator, the whole string if there is none |
| `Text.FirstField` | scrapers/stats_scraper.py:94 | `split(sep)[0]` is the separator-free prefix that ends at the first separator, the whole string if there is none |
| `Text.Find` | scrapers/teams_scraper.py:163 | `str.find` returns -1 exactly when the needle does not occur, otherwise its first occurrence |
| `Text.EmptyIsSubstring` | scrapers/teams_scraper.py:163 | the empty string occurs in every string |
| `Text.LexLeTotal` | scrapers/games_today_scraper.py:41 | Python's string `<=` (code-point lexicographic, a proper prefix first) relates any two strings one way or the other |
| `Text.LexLeTransitive` | scrapers/games_today_scraper.py:41 | Python's string `<=` is transitive |
| `Text.LexLeAntisymmetric` | scrapers/games_today_scraper.py:41 | two strings each `<=` the other are equal |
| `GamesTodayScraper.LexLeIsTotalPreorder` | scrapers/games_today_scraper.py:41 | Python's string `<=` is a total preorder, the order `list.sort()` needs |
| `Text.ParseInt` | scrapers/stats_scraper.py:107 | `int()` succeeds exactly on an optionally signed run of digits, with the sign of the literal |
| `Text.ParseIntRoundTrip` | scrapers/stats_scraper.py:107 | a printed integer parses back to itself |
| `Text.ParseIntPlusSign` | scrapers/stats_scraper.py:107 | a `+` before a digit run leaves the value unchanged |
| `Text.ParseIntMinusSign` | scrapers/stats_scraper.py:107 | a `-` before a digit run negates the value |
| `Text.ParseIntLeadingZero` | scrapers/stats_scraper.py:107 | a leading zero before a digit run leaves the value unchanged; with the sign lemmas and the round trip this fixes the value of every literal |
| `Seqs.Filter` | scrapers/teams_scraper.py:136-149 | the kept elements are exactly the input elements that pass the test |
| `Seqs.FilterAppend` | scrapers/teams_scraper.py:137-149 | filtering commutes with concatenation, so kept elements stay in input order |
| `Seqs.PrefixSlice` | scrapers/teams_scraper.py:82-92 | `xs[0:n]` is a prefix of length min(n, len) for n >= 0, and len + n (at least 0) for negative n |
| `Sorting.InsertionSort` | scrapers/stats_scraper.py:41 | the result is sorted by the given total preorder and is a permutation of the input |
| `Sorting.InsertionSortStable` | scrapers/stats_scraper.py:41 | elements that compare equal keep their input order |
| `TeamsScraper.NewTeamsScraper` | scrapers/teams_scraper.py:10-17 | a new scraper holds no batters |
| `TeamsScraper.CleanId` | scrapers/teams_scraper.py:109-118 | the id after its last "/": a slash-free suffix preceded by "/", the whole id if it has no "/" |
| `TeamsScraper.CleanIdIdempotent` | scrapers/teams_scraper.py:118 | cleaning a cleaned id changes nothing |
| `TeamsScraper.CleanIdLastSegment` | scrapers/teams_scraper.py:118 | for any path and any name without a slash, the id of `path/name` is `name` |
| `TeamsScraper.PlayerFromRow` | scrapers/teams_scraper.py:94-107 | the batter built from a roster row has the cleaned `data-append-csv` id, the link text as name, the team's code, name and colours, no games and average 0 |
| `TeamsScraper.CheckIfTeamIsPlaying` | scrapers/teams_scraper.py:153-164 | `True` exactly when some listed name occurs inside the team name, otherwise `None` |
| `TeamsScraper.EmptyEntryMatchesAll` | scrapers/teams_scraper.py:162-164 | an empty listed name selects every team |
| `TeamsScraper.IsPlayingExample` | scrapers/teams_scraper.py:162-164 | with ["Yankees"], "New York Yankees" is selected and "Boston Red Sox" is not |
| `TeamsScraper.EntryToDict` | scrapers/teams_scraper.py:144-149 | a selected team's dict has exactly the keys team_code, team_name, primary_color, secondary_color, copied unchanged |
| `TeamsScraper.EntryKeyTexts` | scrapers/teams_scraper.py:144-149 | the key texts are team_code, team_name, primary_color, secondary_color, in that order |
| `TeamsScraper.GetTeamsJson` | scrapers/teams_scraper.py:136-151 | keeps exactly the directory entries of playing teams, in directory order |
| `TeamsScraper.TeamsJsonDictsArePlaying` | scrapers/teams_scraper.py:136-151 | every dict of the returned list has the four directory keys and carries the name of a directory team playing today |
| `TeamsScraper.AddBatters` | scrapers/teams_scraper.py:41-55 | one batter per row is appended in row order, with the cleaned id and the row's team; earlier batters are unchanged at the front |
| `TeamsScraper.SelectedBattersCount` | scrapers/teams_scraper.py:29-36 | at most `num_batters` batters are taken from each team, so at most `len(teams) * num_batters` in all |
| `TeamsScraper.CollectBatters` | scrapers/teams_scraper.py:31-36 | the team loop appends each team's batters, team after team |
| `TeamsScraper.GetBatters` | scrapers/teams_scraper.py:19-39 | the result is the scraper's own list: the batters it held, then those of every playing team in directory order |
| `TeamsScraper.GetBattersOnlyPlayingTeams` | scrapers/teams_scraper.py:29-36 | every batter added belongs to a team playing today |
| `GamesTodayScraper.NewGamesTodayScraper` | scrapers/games_today_scraper.py:10-13 | a new scraper holds no teams, so no repeated team |
| `GamesTodayScraper.NormaliseTeamName` | scrapers/games_today_scraper.py:94-97 | "D-backs" becomes "Diamondbacks", every other name is kept, and no result is "D-backs" |
| `GamesTodayScraper.NormaliseIdempotent` | scrapers/games_today_scraper.py:94-97 | normalising twice is normalising once |
| `GamesTodayScraper.BaseballTeams` | scrapers/games_today_scraper.py:81-99 | away and home names are normalised each on its own |
| `GamesTodayScraper.AddToTeams` | scrapers/games_today_scraper.py:47-50 | a present team leaves the list unchanged, a new one is appended; the names are the old ones plus the team; no duplicates are created |
| `GamesTodayScraper.CollectTeams` | scrapers/games_today_scraper.py:36-39 | after the loop the list holds the earlier names and every away and home team; each name occurs once when the earlier list had no repeat |
| `GamesTodayScraper.GetGames` | scrapers/games_today_scraper.py:15-45 | without games: (False, []) and no change; with games: True and the scraper's list, sorted ascending, holding every team of every game and the earlier names, without duplicates when the earlier list had none (as a scraper started empty has) |
| `GamesTodayScraper.NoDuplicatesDistinct` | scrapers/games_today_scraper.py:47-50 | a list without repeated names has different names at different positions |
| `GamesTodayScraper.SortedNoDuplicatesStrict` | scrapers/games_today_scraper.py:41-42 | the returned list is strictly ascending |
| `StatsScraper.NewStatsScraper` | scrapers/stats_scraper.py:11-14 | a new scraper holds no batters |
| `StatsScraper.RecentRows` | scrapers/stats_scraper.py:29 | the game rows read are the first min(10, rows) rows of the game log, in order |
| `StatsScraper.GameDate` | scrapers/stats_scraper.py:85-95 | the date is the `csk` text before its first ".", with no "." in it, the whole text if it has none |
| `StatsScraper.Opponent` | scrapers/stats_scraper.py:109-121 | the label is the home/away marker followed directly by the opponent id, and splits back into the two |
| `StatsScraper.RowToGame` | scrapers/stats_scraper.py:30-37 | a row gives a game exactly when its H and AB cells are integers; date, opponent, hits and at-bats come from the row's cells |
| `StatsScraper.RowsAreNotValidated` | scrapers/stats_scraper.py:32-36 | more hits than at-bats, or a negative count, is stored as read |
| `StatsScraper.BuildGames` | scrapers/stats_scraper.py:30-37 | one game per row in row order, or failure exactly when some row cannot be read |
| `StatsScraper.BatterWithStats` | scrapers/stats_scraper.py:25-39 | reading succeeds exactly when each of the first 10 rows of the batter's own game log (found by id) reads as a game; the batter then gets, through `add_games`, exactly those games in row order, and nothing else changes |
| `StatsScraper.Rank` | scrapers/stats_scraper.py:40-41 | batters come out with non-increasing averages and form a permutation of the input |
| `StatsScraper.RankStable` | scrapers/stats_scraper.py:41 | batters with equal averages keep their input order |
| `StatsScraper.WithStats` | scrapers/stats_scraper.py:25-39 | every batter, in input order, with their game-log games attached |
| `StatsScraper.AttachStats` | scrapers/stats_scraper.py:24-39 | the batter loop yields a result exactly when every game log can be read, and that result is every batter with their games, in input order |
| `StatsScraper.GetStats` | scrapers/stats_scraper.py:16-43 | succeeds exactly when every game log can be read; then returns the scraper's own list, the updated batters ranked by average; on failure the scraper is unchanged |

## Left out

- components/browser.py, components/cms.py, components/logger.py and main.py are not part of this model: page navigation, selectors, clicks, waits, the HTTP calls to the CMS, the credentials file, the log file and the top-level try/except/finally are I/O.
- The JSON files: reading `teams_directory.json` in `_get_teams_json` and `_export_to_json` in both scrapers are file I/O; only the dict values written are modelled.
- `today_date` and `_has_games_today` read the wall clock and the page; whether there are games today is the input `hasGames`.
- `_open_team_page`, `_open_batters_page`, `_get_table`, `_get_schedule`, `_get_baseball_games` and `_get_player_name`'s DOM reads are page access; their outputs are the row records given as input. An element missing from the page (a Python `AttributeError` on `None`) is therefore not modelled.
- The getters (`get_id`, `get_name`, `get_team_code`, `get_batting_games`, `get_batters`, the `BattersGame` getters) are the fields of the records.
- `print` calls are output only.
- Batters.MovingAverage: Python rounds the binary float `total / n` with `round(x, 3)`; the model rounds the exact ratio, halves upwards. `RoundingUniqueUpToTenGames` shows that no half-way case exists for the up to ten games `get_stats` collects, so the two agree there.
- Batters.MovingAverage: for zero games Python stores `round(0, 2)`, which is the integer `0`, so the JSON shows `0` where other averages are floats; the model stores 0 thousandths and does not keep the int/float distinction.
- Text.ParseInt: Python's `int()` also accepts surrounding whitespace, underscores between digits and non-ASCII decimal digits; the model treats those cells as unreadable.
- TeamsScraper.GetTeamsJson: directory entries are four-field records, so a directory entry without one of the keys (a Python `KeyError`) and extra keys (dropped by the source) are not modelled.
- StatsScraper.GetStats: in the source the list passed in, `batters_list` and `self._batters` are one list object, so the sort reorders the caller's list in place, and `add_games` changes the caller's `Batter` objects; as `main.py` calls it, that list is the class-level `TeamsScraper._batters`. The model returns a new ranked sequence and leaves the caller's sequence, and so the teams scraper's batters, as they were.
- StatsScraper.GetStats: when a game log cannot be read, the source has already attached games to the batters before it, in place; the model returns `None` without those partial updates, since the run then stops.

=== FILE: batter.dfy ===
/** A batter: identity, the team fields copied from the team directory, the
    games collected for them and the average derived from those games
    (components/batter.py). */
module Batters {
  import opened Options
  import opened Dicts
  import BattersGames

  type BattersGame = BattersGames.BattersGame

  /** One entry of the team directory, as passed to the `Batter` constructor. */
  datatype TeamEntry = TeamEntry(teamCode: string, teamName: string, primaryColor: string, secondaryColor: string)

  /** `movingAverage` is the mean number of hits per game in thousandths
      (1.25 hits per game is 1250). Each batter owns its own game sequence. */
  datatype Batter = Batter(
    id: string,
    name: string,
    teamCode: string,
    teamName: string,
    primaryColor: string,
    secondaryColor: string,
    movingAverage: int,
    games: seq<BattersGame>)

  /** `Batter.__init__`: identity from the arguments, the four team fields
      from the directory entry, no games and an average of 0. */
  function NewBatter(id: string, name: string, team: TeamEntry): (b: Batter)
    ensures b.id == id && b.name == name
    ensures b.teamCode == team.teamCode && b.teamName == team.teamName
    ensures b.primaryColor == team.primaryColor && b.secondaryColor == team.secondaryColor
    ensures b.games == [] && b.movingAverage == 0
  {
    Batter(id, name, team.teamCode, team.teamName, team.primaryColor, team.secondaryColor, 0, [])
  }

  /** `Batter.get_url_info`: what the statistics page is looked up by. */
  function UrlInfo(b: Batter): (info: (string, string, string))
    ensures info.0 == b.id && info.1 == b.name && info.2 == b.teamName
  {
    (b.id, b.name, b.teamName)
  }

  // ---------------------------------------------------------------------
  // The moving average
  // ---------------------------------------------------------------------

  function TotalHits(games: seq<BattersGame>): int
  {
    if |games| == 0 then 0 else games[0].hits + TotalHits(games[1..])
  }

  lemma {:induction false} TotalHitsAppend(games: seq<BattersGame>, g: BattersGame)
    ensures TotalHits(games + [g]) == TotalHits(games) + g.hits
  {
    if |games| > 0 {
      assert (games + [g])[1..] == games[1..] + [g];
      TotalHitsAppend(games[1..], g);
    }
  }

  function Abs(x: int): nat { if x < 0 then -x else x }

  /** `m` thousandths is within half a thousandth of `total / n`, which is
      what `round(total / n, 3)` promises. */
  predicate IsNearestThousandth(m: int, total: int, n: int)
  {
    2 * Abs(1000 * total - n * m) <= n
  }

  /** `round(num / den)` with halves rounded up, for a positive `den`. */
  function RoundDiv(num: int, den: int): (q: int)
    requires den > 0
    ensures 2 * Abs(num - den * q) <= den
  {
    var q := (2 * num + den) / (2 * den);
    var rem := (2 * num + den) % (2 * den);
    assert 2 * num + den == 2 * den * q + rem;
    assert 2 * (num - den * q) == rem - den;
    q
  }

  /** `calculate_moving_average` as a value: 0 without games, otherwise the
      mean hits per game rounded to three decimals. */
  function MovingAverage(games: seq<BattersGame>): (m: int)
    ensures |games| == 0 ==> m == 0
    ensures |games| > 0 ==> IsNearestThousandth(m, TotalHits(games), |games|)
  {
    if |games| == 0 then 0 else RoundDiv(1000 * TotalHits(games), |games|)
  }

  /** `calculate_moving_average`: sums the hits in one pass, then divides. */
  method CalculateMovingAverage(games: seq<BattersGame>) returns (m: int)
    ensures m == MovingAverage(games)
  {
    var totalHits := 0;
    var i := 0;
    while i < |games|
      invariant 0 <= i <= |games|
      invariant totalHits == TotalHits(games[..i])
    {
      assert games[..i + 1] == games[..i] + [games[i]];
      TotalHitsAppend(games[..i], games[i]);
      totalHits := totalHits + games[i].hits;
      i := i + 1;
    }
    assert games[..i] == games;
    if |games| > 0 {
      m := RoundDiv(1000 * totalHits, |games|);
    } else {
      m := 0;
    }
  }

  lemma {:induction false} TotalHitsBounds(games: seq<BattersGame>, lo: int, hi: int)
    requires forall i :: 0 <= i < |games| ==> lo <= games[i].hits <= hi
    ensures |games| * lo <= TotalHits(games) <= |games| * hi
  {
    if |games| > 0 {
      TotalHitsBounds(games[1..], lo, hi);
      assert |games| * lo == lo + (|games| - 1) * lo;
      assert |games| * hi == hi + (|games| - 1) * hi;
    }
  }

  /** Cancelling a positive factor from a strict inequality. */
  lemma CancelFactor(n: int, a: int, b: int)
    requires n > 0 && n * a > n * b
    ensures a > b
  {
    assert n * a - n * b == n * (a - b);
  }

  /** The average of hit counts that all lie in `[lo, hi]` lies in `[lo, hi]`:
      rounding to thousandths cannot push a mean past an integer bound. */
  lemma MovingAverageBounds(games: seq<BattersGame>, lo: int, hi: int)
    requires |games| > 0
    requires forall i :: 0 <= i < |games| ==> lo <= games[i].hits <= hi
    ensures 1000 * lo <= MovingAverage(games) <= 1000 * hi
  {
    TotalHitsBounds(games, lo, hi);
    RoundedMeanBounds(|games|, TotalHits(games), MovingAverage(games), lo, hi);
  }

  /** Integer core of `MovingAverageBounds`: a nearest thousandth of a mean in
      `[lo, hi]` lies in `[1000 * lo, 1000 * hi]`. */
  lemma RoundedMeanBounds(n: int, t: int, m: int, lo: int, hi: int)
    requires n > 0 && n * lo <= t <= n * hi
    requires IsNearestThousandth(m, t, n)
    ensures 1000 * lo <= m <= 1000 * hi
  {
    assert n * m > n * (1000 * lo - 1) by {
      assert n * (1000 * lo - 1) == 1000 * (n * lo) - n;
    }
    CancelFactor(n, m, 1000 * lo - 1);
    assert n * (1000 * hi + 1) > n * m by {
      assert n * (1000 * hi + 1) == 1000 * (n * hi) + n;
    }
    CancelFactor(n, 1000 * hi + 1, m);
  }

  /** Non-negative hit counts give a non-negative average, with or without games. */
  lemma MovingAverageNonNegative(games: seq<BattersGame>)
    requires forall i :: 0 <= i < |games| ==> games[i].hits >= 0
    ensures MovingAverage(games) >= 0
  {
    if |games| > 0 {
      MaxHitsBound(games);
      MovingAverageBounds(games, 0, MaxHits(games));
    }
  }

  function MaxHits(games: seq<BattersGame>): int
    requires |games| > 0
  {
    if |games| == 1 then games[0].hits
    else
      var rest := MaxHits(games[1..]);
      if games[0].hits >= rest then games[0].hits else rest
  }

  lemma {:induction false} MaxHitsBound(games: seq<BattersGame>)
    requires |games| > 0
    ensures forall i :: 0 <= i < |games| ==> games[i].hits <= MaxHits(games)
  {
    if |games| > 1 {
      MaxHitsBound(games[1..]);
      assert forall i :: 1 <= i < |games| ==> games[i] == games[1..][i - 1];
    }
  }

  /** With at most ten games (what the statistics scraper collects) the exact
      mean is never halfway between two thousandths, so every correct
      rounding to three decimals, Python's included, gives this value. */
  lemma RoundingUniqueUpToTenGames(games: seq<BattersGame>, m: int)
    requires 1 <= |games| <= 10
    requires IsNearestThousandth(m, TotalHits(games), |games|)
    ensures m == MovingAverage(games)
  {
    var n, t, a := |games|, TotalHits(games), MovingAverage(games);
    NoHalfway(t, n, a);
    NoHalfway(t, n, m);
    assert n * a - n * m == n * (a - m);
    SmallMultiple(n, a - m);
  }

  /** The only multiple of `n` strictly between `-n` and `n` is 0. */
  lemma SmallMultiple(n: int, d: int)
    requires n > 0 && -n < n * d < n
    ensures d == 0
  {
    assert d >= 1 ==> n * d == n + n * (d - 1);
    assert d <= -1 ==> n * d == -n + n * (d + 1);
  }

  /** For `1 <= n <= 10`, `1000 * t / n` is never an odd multiple of one half. */
  lemma NoHalfway(t: int, n: int, m: int)
    requires 1 <= n <= 10
    ensures 2 * Abs(1000 * t - n * m) != n
  {
  }

  /** Hits 1, 0, 2, 1 over four games average 1.0 (1000 thousandths). */
  lemma MovingAverageExample(date: string, opponent: string)
    ensures MovingAverage([
      BattersGames.BattersGame(date, opponent, 1, 4),
      BattersGames.BattersGame(date, opponent, 0, 3),
      BattersGames.BattersGame(date, opponent, 2, 4),
      BattersGames.BattersGame(date, opponent, 1, 5)]) == 1000
  {
    var games := [
      BattersGames.BattersGame(date, opponent, 1, 4),
      BattersGames.BattersGame(date, opponent, 0, 3),
      BattersGames.BattersGame(date, opponent, 2, 4),
      BattersGames.BattersGame(date, opponent, 1, 5)];
    assert TotalHits(games[3..]) == 1;
    assert TotalHits(games[2..]) == 3;
    assert TotalHits(games[1..]) == 3;
    assert TotalHits(games) == 4;
  }

  // ---------------------------------------------------------------------
  // Games
  // ---------------------------------------------------------------------

  /** `Batter.add_games`: replaces the games wholesale and recomputes the
      average from them; identity and team fields are untouched. */
  function AddGames(b: Batter, games: seq<BattersGame>): (r: Batter)
    ensures r.games == games
    ensures r.movingAverage == MovingAverage(games)
    ensures r == b.(games := r.games, movingAverage := r.movingAverage)
  {
    b.(games := games, movingAverage := MovingAverage(games))
  }

  /** Games added earlier are forgotten by the next `add_games`. */
  lemma AddGamesReplaces(b: Batter, earlier: seq<BattersGame>, games: seq<BattersGame>)
    ensures AddGames(AddGames(b, earlier), games) == AddGames(b, games)
  {
  }

  lemma AddGamesIdempotent(b: Batter, games: seq<BattersGame>)
    ensures AddGames(AddGames(b, games), games) == AddGames(b, games)
  {
  }

  // ---------------------------------------------------------------------
  // Serialisation
  // ---------------------------------------------------------------------

  /** Serialising the games and reading them back gives the same games. */
  lemma GamesListRoundTrip(games: seq<BattersGame>)
    ensures DecodeList(EncodeList(games, BattersGames.ToDict), BattersGames.FromDict) == Some(games)
  {
    forall g ensures BattersGames.FromDict(BattersGames.ToDict(g)) == Some(g) {
      BattersGames.RoundTrip(g);
    }
    DecodeEncodeList(games, BattersGames.ToDict, BattersGames.FromDict);
  }

  const BatterKeys: seq<Key> :=
    [IdKey, NameKey, TeamCodeKey, TeamNameKey, PrimaryColorKey, SecondaryColorKey, MovingAverageKey, GamesKey]

  lemma BatterKeysDistinct()
    ensures DistinctKeys(BatterKeys)
  {
  }

  /** The keys of `Batter.to_dict` as written there, in order. */
  lemma BatterKeyTexts()
    ensures KeyTexts(BatterKeys) == ["id", "name", "team_code", "team_name", "primary_color",
                                     "secondary_color", "moving_average", "games"]
  {
  }

  /** `Batter.to_dict`: eight keys in a fixed order; the games serialised one
      by one, in order. */
  function ToDict(b: Batter): (v: Value)
    ensures v.Dict? && Keys(v.fields) == BatterKeys
    ensures Get(v.fields, IdKey) == Some(Str(b.id))
    ensures Get(v.fields, NameKey) == Some(Str(b.name))
    ensures Get(v.fields, TeamCodeKey) == Some(Str(b.teamCode))
    ensures Get(v.fields, TeamNameKey) == Some(Str(b.teamName))
    ensures Get(v.fields, PrimaryColorKey) == Some(Str(b.primaryColor))
    ensures Get(v.fields, SecondaryColorKey) == Some(Str(b.secondaryColor))
    ensures Get(v.fields, MovingAverageKey) == Some(Decimal3(b.movingAverage))
    ensures Get(v.fields, GamesKey) == Some(List(EncodeList(b.games, BattersGames.ToDict)))
  {
    var values := [
      Str(b.id),
      Str(b.name),
      Str(b.teamCode),
      Str(b.teamName),
      Str(b.primaryColor),
      Str(b.secondaryColor),
      Decimal3(b.movingAverage),
      List(EncodeList(b.games, BattersGames.ToDict))
    ];
    BatterKeysDistinct();
    ZipGet(BatterKeys, values, 0);
    ZipGet(BatterKeys, values, 1);
    ZipGet(BatterKeys, values, 2);
    ZipGet(BatterKeys, values, 3);
    ZipGet(BatterKeys, values, 4);
    ZipGet(BatterKeys, values, 5);
    ZipGet(BatterKeys, values, 6);
    ZipGet(BatterKeys, values, 7);
    Dict(Zip(BatterKeys, values))
  }

  /** Reads a batter back from its dict form by key. */
  function FromDict(v: Value): Option<Batter>
  {
    if !v.Dict? then None
    else
      var f := v.fields;
      var id, name, code, team := GetStr(f, IdKey), GetStr(f, NameKey), GetStr(f, TeamCodeKey), GetStr(f, TeamNameKey);
      var c1, c2 := GetStr(f, PrimaryColorKey), GetStr(f, SecondaryColorKey);
      var avg, items := Get(f, MovingAverageKey), Get(f, GamesKey);
      if id.None? || name.None? || code.None? || team.None? || c1.None? || c2.None? then None
      else if avg.None? || !avg.value.Decimal3? || items.None? || !items.value.List? then None
      else
        var games := DecodeList(items.value.items, BattersGames.FromDict);
        if games.None? then None
        else Some(Batter(id.value, name.value, code.value, team.value, c1.value, c2.value,
                         avg.value.thousandths, games.value))
  }

  /** Serialising a batter and reading it back reproduces every field and
      every game. */
  lemma RoundTrip(b: Batter)
    ensures FromDict(ToDict(b)) == Some(b)
  {
    var f := ToDict(b).fields;
    assert GetStr(f, IdKey) == Some(b.id) && GetStr(f, NameKey) == Some(b.name);
    assert GetStr(f, TeamCodeKey) == Some(b.teamCode) && GetStr(f, TeamNameKey) == Some(b.teamName);
    assert GetStr(f, PrimaryColorKey) == Some(b.primaryColor) && GetStr(f, SecondaryColorKey) == Some(b.secondaryColor);
    GamesListRoundTrip(b.games);
  }
}

=== FILE: batters_game.dfy ===
/** One batter's line for one game (components/batters_game.py). */
module BattersGames {
  import opened Options
  import opened Dicts

  /** The constructor stores its four arguments as given: negative counts and
      `hits > atBats` are accepted, and the getters of the source are the
      fields of this record. */
  datatype BattersGame = BattersGame(date: string, teamPlayed: string, hits: int, atBats: int)

  const GameKeys: seq<Key> := [DateKey, TeamPlayedKey, HitsKey, AtBatsKey]

  lemma GameKeysDistinct()
    ensures DistinctKeys(GameKeys)
  {
  }

  /** The keys of `BattersGame.to_dict` as written there, in order. */
  lemma GameKeyTexts()
    ensures KeyTexts(GameKeys) == ["date", "team_played", "hits", "at_bats"]
  {
  }

  /** `BattersGame.to_dict`: four keys, always in the same order. */
  function ToDict(g: BattersGame): (v: Value)
    ensures v.Dict? && Keys(v.fields) == GameKeys
    ensures Get(v.fields, DateKey) == Some(Str(g.date))
    ensures Get(v.fields, TeamPlayedKey) == Some(Str(g.teamPlayed))
    ensures Get(v.fields, HitsKey) == Some(Int(g.hits))
    ensures Get(v.fields, AtBatsKey) == Some(Int(g.atBats))
  {
    var values := [
      Str(g.date),
      Str(g.teamPlayed),
      Int(g.hits),
      Int(g.atBats)
    ];
    GameKeysDistinct();
    ZipGet(GameKeys, values, 0);
    ZipGet(GameKeys, values, 1);
    ZipGet(GameKeys, values, 2);
    ZipGet(GameKeys, values, 3);
    Dict(Zip(GameKeys, values))
  }

  /** Reads a game back from its dict form by key; `None` when a key is
      missing or holds a value of the wrong kind. */
  function FromDict(v: Value): Option<BattersGame>
  {
    if !v.Dict? then None
    else
      match (GetStr(v.fields, DateKey), GetStr(v.fields, TeamPlayedKey),
             GetInt(v.fields, HitsKey), GetInt(v.fields, AtBatsKey))
      case (Some(d), Some(t), Some(h), Some(a)) => Some(BattersGame(d, t, h, a))
      case _ => None
  }

  /** Serialising a game and reading it back gives the same game. */
  lemma RoundTrip(g: BattersGame)
    ensures FromDict(ToDict(g)) == Some(g)
  {
  }
}

=== FILE: dicts.dfy ===
/** The dict/list values the `to_dict` methods build (and `json.dump` writes).
    A dict is a list of fields so that insertion order, which Python keeps and
    the JSON output shows, is part of the value. */
module Dicts {
  import opened Options

  /** The keys the serialised records use; `KeyText` gives their JSON text. */
  datatype Key =
    | IdKey | NameKey | TeamCodeKey | TeamNameKey | PrimaryColorKey | SecondaryColorKey
    | MovingAverageKey | GamesKey | BattersKey | DateKey | TeamPlayedKey | HitsKey | AtBatsKey

  function KeyText(k: Key): string
  {
    match k
    case IdKey => "id"
    case NameKey => "name"
    case TeamCodeKey => "team_code"
    case TeamNameKey => "team_name"
    case PrimaryColorKey => "primary_color"
    case SecondaryColorKey => "secondary_color"
    case MovingAverageKey => "moving_average"
    case GamesKey => "games"
    case BattersKey => "batters"
    case DateKey => "date"
    case TeamPlayedKey => "team_played"
    case HitsKey => "hits"
    case AtBatsKey => "at_bats"
  }

  /** Different keys have different texts, so a dict keyed by `Key` is a dict
      keyed by the texts. */
  lemma KeyTextInjective(a: Key, b: Key)
    requires a != b
    ensures KeyText(a) != KeyText(b)
  {
    if |KeyText(a)| == |KeyText(b)| && |KeyText(a)| > 0 {
      assert KeyText(a)[0] != KeyText(b)[0] || KeyText(a)[5] != KeyText(b)[5];
    }
  }

  datatype Value =
    | Str(text: string)
    | Int(number: int)
      /** A float with three decimals, held as an integer count of thousandths. */
    | Decimal3(thousandths: int)
    | List(items: seq<Value>)
    | Dict(fields: seq<Field>)

  datatype Field = Field(key: Key, value: Value)

  /** The keys of a dict in insertion order (Python's `list(d.keys())`). */
  function Keys(fields: seq<Field>): (ks: seq<Key>)
    ensures |ks| == |fields|
    ensures forall i :: 0 <= i < |fields| ==> ks[i] == fields[i].key
  {
    seq(|fields|, i requires 0 <= i < |fields| => fields[i].key)
  }

  /** Python's `d[key]`; `None` where Python raises `KeyError`. With a
      repeated key the first field wins (Python never builds such a dict). */
  function Get(fields: seq<Field>, key: Key): Option<Value>
  {
    if |fields| == 0 then None
    else if fields[0].key == key then Some(fields[0].value)
    else Get(fields[1..], key)
  }

  /** The lookup fails exactly for absent keys, and what it finds was stored
      under that key. */
  lemma {:induction false} GetSpec(fields: seq<Field>, key: Key)
    ensures Get(fields, key).None? <==> key !in Keys(fields)
    ensures Get(fields, key).Some? ==> Field(key, Get(fields, key).value) in fields
  {
    if |fields| > 0 && fields[0].key != key {
      GetSpec(fields[1..], key);
      assert Keys(fields) == [fields[0].key] + Keys(fields[1..]);
    }
  }

  /** A key not used by any earlier field maps to the value stored with it. */
  lemma {:induction false} GetAt(fields: seq<Field>, i: nat)
    requires i < |fields|
    requires forall j :: 0 <= j < i ==> fields[j].key != fields[i].key
    ensures Get(fields, fields[i].key) == Some(fields[i].value)
  {
    if i > 0 {
      GetAt(fields[1..], i - 1);
    }
  }

  /** No key is listed twice. */
  predicate DistinctKeys(keys: seq<Key>)
  {
    forall i, j :: 0 <= i < j < |keys| ==> keys[i] != keys[j]
  }

  /** The JSON texts of a list of keys, in order (`list(d.keys())` on the
      Python side). */
  function KeyTexts(keys: seq<Key>): (ts: seq<string>)
    ensures |ts| == |keys|
    ensures forall i :: 0 <= i < |keys| ==> ts[i] == KeyText(keys[i])
  {
    seq(|keys|, i requires 0 <= i < |keys| => KeyText(keys[i]))
  }

  /** The fields of a dict literal `{keys[0]: values[0], ...}`, in order. */
  function Zip(keys: seq<Key>, values: seq<Value>): (fields: seq<Field>)
    requires |keys| == |values|
    ensures Keys(fields) == keys
    ensures forall i :: 0 <= i < |fields| ==> fields[i] == Field(keys[i], values[i])
  {
    seq(|keys|, i requires 0 <= i < |keys| => Field(keys[i], values[i]))
  }

  /** Looking up the i-th key of a dict literal with distinct keys yields the
      i-th value. */
  lemma ZipGet(keys: seq<Key>, values: seq<Value>, i: nat)
    requires |keys| == |values| && DistinctKeys(keys) && i < |keys|
    ensures Get(Zip(keys, values), keys[i]) == Some(values[i])
  {
    GetAt(Zip(keys, values), i);
  }

  function GetStr(fields: seq<Field>, key: Key): Option<string>
  {
    match Get(fields, key)
    case Some(Str(t)) => Some(t)
    case _ => None
  }

  function GetInt(fields: seq<Field>, key: Key): Option<int>
  {
    match Get(fields, key)
    case Some(Int(n)) => Some(n)
    case _ => None
  }

  /** A list of records serialised one by one, in order
      (`[x.to_dict() for x in xs]`). */
  function EncodeList<A>(xs: seq<A>, enc: A -> Value): (items: seq<Value>)
    ensures |items| == |xs|
    ensures forall i :: 0 <= i < |xs| ==> items[i] == enc(xs[i])
  {
    seq(|xs|, i requires 0 <= i < |xs| => enc(xs[i]))
  }

  /** Reads a list back item by item; `None` as soon as one item cannot be read. */
  function DecodeList<A>(items: seq<Value>, dec: Value -> Option<A>): Option<seq<A>>
  {
    if |items| == 0 then Some([])
    else
      match (dec(items[0]), DecodeList(items[1..], dec))
      case (Some(x), Some(xs)) => Some([x] + xs)
      case _ => None
  }

  /** When every record reads back from its own dict, the whole list does. */
  lemma {:induction false} DecodeEncodeList<A>(xs: seq<A>, enc: A -> Value, dec: Value -> Option<A>)
    requires forall x :: dec(enc(x)) == Some(x)
    ensures DecodeList(EncodeList(xs, enc), dec) == Some(xs)
  {
    if |xs| > 0 {
      var items := EncodeList(xs, enc);
      assert items[1..] == EncodeList(xs[1..], enc);
      DecodeEncodeList(xs[1..], enc, dec);
      assert dec(items[0]) == Some(xs[0]);
      assert xs == [xs[0]] + xs[1..];
    }
  }
}

=== FILE: games_today_scraper.dfy ===
/** The schedule step (scrapers/games_today_scraper.py): collects the names
    of the teams that play today, without duplicates and sorted. Whether the
    page shows today's date and the team labels of each game are inputs
    here; the page itself is not modelled. */
module GamesTodayScraper {
  import opened Sorting
  import opened Text

  /** The away and home labels shown for one game of the schedule. */
  datatype GameCells = GameCells(awayText: string, homeText: string)

  /** The team names collected so far. Each scraper owns its own sequence. */
  datatype GamesTodayScraper = GamesTodayScraper(teams: seq<string>)

  /** A new scraper starts with no teams. */
  function NewGamesTodayScraper(): (s: GamesTodayScraper)
    ensures |s.teams| == 0
    ensures NoDuplicates(s.teams)
  {
    GamesTodayScraper([])
  }

  /** Every name occurs at most once. */
  ghost predicate NoDuplicates(s: seq<string>)
  {
    forall x :: multiset(s)[x] <= 1
  }

  /** With no repeated name, no two positions hold the same name. */
  lemma NoDuplicatesDistinct(s: seq<string>, i: int, j: int)
    requires NoDuplicates(s)
    requires 0 <= i < j < |s|
    ensures s[i] != s[j]
  {
    assert s == s[..j] + [s[j]] + s[j + 1..];
    assert s[i] in multiset(s[..j]);
    assert multiset(s)[s[j]] == multiset(s[..j])[s[j]] + 1 + multiset(s[j + 1..])[s[j]];
  }

  /** The label normalisation of `_get_baseball_teams`: "D-backs" is written
      out as "Diamondbacks"; every other label is kept. */
  function NormaliseTeamName(shown: string): (name: string)
    ensures shown == "D-backs" ==> name == "Diamondbacks"
    ensures shown != "D-backs" ==> name == shown
    ensures name != "D-backs"
  {
    if shown == "D-backs" then "Diamondbacks" else shown
  }

  /** Normalising a normalised name changes nothing. */
  lemma NormaliseIdempotent(shown: string)
    ensures NormaliseTeamName(NormaliseTeamName(shown)) == NormaliseTeamName(shown)
  {
  }

  /** `_get_baseball_teams`: the (away, home) names of one game, each side
      normalised on its own. */
  function BaseballTeams(game: GameCells): (teams: (string, string))
    ensures teams.0 == NormaliseTeamName(game.awayText)
    ensures teams.1 == NormaliseTeamName(game.homeText)
  {
    (NormaliseTeamName(game.awayText), NormaliseTeamName(game.homeText))
  }

  /** `_add_to_teams`: appends `team` unless it is already there. */
  function AddToTeams(teams: seq<string>, team: string): (r: seq<string>)
    ensures team in teams ==> r == teams
    ensures team !in teams ==> r == teams + [team]
    ensures forall x :: x in r <==> x in teams || x == team
    ensures NoDuplicates(teams) ==> NoDuplicates(r)
  {
    if team in teams then teams else teams + [team]
  }

  /** The team plays in one of the first `n` games. */
  predicate PlaysIn(team: string, games: seq<GameCells>, n: int)
    requires 0 <= n <= |games|
  {
    exists k :: 0 <= k < n && (team == BaseballTeams(games[k]).0 || team == BaseballTeams(games[k]).1)
  }

  /** The loop of `get_games`: adds the away and then the home team of each
      game in turn. */
  method CollectTeams(teams: seq<string>, games: seq<GameCells>) returns (r: seq<string>)
    ensures forall t :: t in r <==> t in teams || PlaysIn(t, games, |games|)
    ensures NoDuplicates(teams) ==> NoDuplicates(r)
  {
    r := teams;
    var i := 0;
    while i < |games|
      invariant 0 <= i <= |games|
      invariant forall t :: t in r <==> t in teams || PlaysIn(t, games, i)
      invariant NoDuplicates(teams) ==> NoDuplicates(r)
    {
      var (away, home) := BaseballTeams(games[i]);
      r := AddToTeams(r, away);
      r := AddToTeams(r, home);
      i := i + 1;
    }
  }

  lemma LexLeIsTotalPreorder()
    ensures TotalPreorder(LexLe)
  {
    forall a, b
      ensures LexLe(a, b) || LexLe(b, a)
    {
      LexLeTotal(a, b);
    }
    forall a, b, c | LexLe(a, b) && LexLe(b, c)
      ensures LexLe(a, c)
    {
      LexLeTransitive(a, b, c);
    }
  }

  /** `get_games`. Without games today the answer is `(false, [])` and the
      scraper is untouched. Otherwise every away and home team of every game
      is added to the scraper's list, the list is sorted in place and
      returned: it holds each team once, in ascending order. */
  method GetGames(s: GamesTodayScraper, hasGames: bool, games: seq<GameCells>)
    returns (r: GamesTodayScraper, playing: bool, teams: seq<string>)
    ensures !hasGames ==> r == s && !playing && teams == []
    ensures hasGames ==> playing && teams == r.teams
    ensures hasGames ==> SortedBy(teams, LexLe)
    ensures hasGames ==> forall t :: t in teams <==> t in s.teams || PlaysIn(t, games, |games|)
    ensures hasGames && NoDuplicates(s.teams) ==> NoDuplicates(teams)
  {
    if !hasGames {
      return s, false, [];
    }
    var collected := CollectTeams(s.teams, games);
    LexLeIsTotalPreorder();
    teams := InsertionSort(collected, LexLe);
    assert forall t :: t in teams <==> t in collected by {
      assert forall t :: t in teams <==> t in multiset(teams);
      assert forall t :: t in collected <==> t in multiset(collected);
    }
    r := GamesTodayScraper(teams);
    playing := true;
  }

  /** A sorted list without duplicates is strictly ascending. */
  lemma SortedNoDuplicatesStrict(teams: seq<string>, i: int, j: int)
    requires SortedBy(teams, LexLe) && NoDuplicates(teams)
    requires 0 <= i < j < |teams|
    ensures LexLe(teams[i], teams[j]) && !LexLe(teams[j], teams[i])
  {
    NoDuplicatesDistinct(teams, i, j);
    if LexLe(teams[j], teams[i]) {
      LexLeAntisymmetric(teams[i], teams[j]);
    }
  }
}

=== FILE: options.dfy ===
/** The optional value used wherever the source can raise or return nothing. */
module Options {

  /** `None` stands for a Python exception (or a missing value); `Some` for a normal result. */
  datatype Option<+T> = None | Some(value: T)
}

=== FILE: seqs.dfy ===
/** Sequence helpers shared by the scrapers: order-preserving filtering,
    Python's `xs[0:n]` prefix slice and an all-or-nothing map. */
module Seqs {
  import opened Options

  function Min(a: int, b: int): int { if a <= b then a else b }

  function Max(a: int, b: int): int { if a <= b then b else a }

  /** The elements of `s` that satisfy `p`, in their original order. */
  function Filter<T(!new)>(s: seq<T>, p: T -> bool): (r: seq<T>)
    ensures |r| <= |s|
    ensures forall x :: x in r <==> x in s && p(x)
    ensures forall i :: 0 <= i < |r| ==> p(r[i])
  {
    if |s| == 0 then []
    else if p(s[0]) then [s[0]] + Filter(s[1..], p)
    else Filter(s[1..], p)
  }

  /** Filtering distributes over concatenation, so the kept elements appear in
      the order they had in the input. */
  lemma {:induction false} FilterAppend<T(!new)>(a: seq<T>, b: seq<T>, p: T -> bool)
    ensures Filter(a + b, p) == Filter(a, p) + Filter(b, p)
  {
    if |a| == 0 {
      assert a + b == b;
    } else {
      assert (a + b)[1..] == a[1..] + b;
      FilterAppend(a[1..], b, p);
    }
  }

  /** Python's `s[0:n]`: a negative `n` counts back from the end. */
  function PrefixSlice<T>(s: seq<T>, n: int): (r: seq<T>)
    ensures r <= s
    ensures n >= 0 ==> |r| == Min(n, |s|)
    ensures n < 0 ==> |r| == Max(0, |s| + n)
  {
    if n >= |s| then s
    else if n >= 0 then s[..n]
    else if |s| + n >= 0 then s[..|s| + n]
    else []
  }

  /** Appending is associative; the form used to move a block from the
      pending tail onto the collected prefix. */
  lemma AppendShift<T>(front: seq<T>, block: seq<T>, tail: seq<T>)
    ensures (front + block) + tail == front + (block + tail)
  {
  }

  /** Applies `f` to every element in order and stops at the first `None`
      (a loop whose body may raise): all the results when every call
      succeeds, `None` otherwise. */
  method MapAll<A, B>(xs: seq<A>, f: A -> Option<B>) returns (r: Option<seq<B>>)
    ensures r.Some? <==> forall i :: 0 <= i < |xs| ==> f(xs[i]).Some?
    ensures r.Some? ==> |r.value| == |xs| && forall i :: 0 <= i < |xs| ==> f(xs[i]) == Some(r.value[i])
  {
    var done: seq<B> := [];
    var i := 0;
    while i < |xs|
      invariant 0 <= i <= |xs|
      invariant |done| == i
      invariant forall k :: 0 <= k < i ==> f(xs[k]) == Some(done[k])
    {
      var y := f(xs[i]);
      if y.None? {
        return None;
      }
      done := done + [y.value];
      i := i + 1;
    }
    r := Some(done);
  }
}

=== FILE: sorting.dfy ===
/** A stable insertion sort over sequences, parameterised by a "comes no later
    than" relation. It stands for Python's `list.sort`, which is stable. */
module Sorting {
  import opened Seqs

  /** `le` is total and transitive: the relations Python's sort assumes of `<`. */
  ghost predicate TotalPreorder<T(!new)>(le: (T, T) -> bool)
  {
    && (forall a, b :: le(a, b) || le(b, a))
    && (forall a, b, c :: le(a, b) && le(b, c) ==> le(a, c))
  }

  predicate SortedBy<T>(s: seq<T>, le: (T, T) -> bool)
  {
    forall i, j :: 0 <= i < j < |s| ==> le(s[i], s[j])
  }

  /** Prepending `h` keeps a sequence sorted when `h` comes no later than any
      of its elements. */
  lemma SortedCons<T>(h: T, s: seq<T>, le: (T, T) -> bool)
    requires SortedBy(s, le)
    requires forall j :: 0 <= j < |s| ==> le(h, s[j])
    ensures SortedBy([h] + s, le)
  {
    forall i, j | 0 <= i < j < |[h] + s|
      ensures le(([h] + s)[i], ([h] + s)[j])
    {
      if i > 0 {
        assert ([h] + s)[i] == s[i - 1];
      }
      assert ([h] + s)[j] == s[j - 1];
    }
  }

  /** Inserts `x` in front of the first element it comes no later than. */
  function Insert<T(==)>(x: T, s: seq<T>, le: (T, T) -> bool): (r: seq<T>)
    ensures |r| == |s| + 1
    ensures multiset(r) == multiset(s) + multiset{x}
  {
    if |s| == 0 || le(x, s[0]) then
      [x] + s
    else
      assert s == [s[0]] + s[1..];
      [s[0]] + Insert(x, s[1..], le)
  }

  /** An element that comes no later than `x` and than every element of `s`
      comes no later than any element of the insertion. */
  lemma {:induction false} InsertBelow<T>(h: T, x: T, s: seq<T>, le: (T, T) -> bool)
    requires le(h, x)
    requires forall j :: 0 <= j < |s| ==> le(h, s[j])
    ensures forall j :: 0 <= j < |s| + 1 ==> le(h, Insert(x, s, le)[j])
  {
    if |s| == 0 || le(x, s[0]) {
    } else {
      InsertBelow(h, x, s[1..], le);
      var r := Insert(x, s, le);
      forall j | 0 <= j < |s| + 1
        ensures le(h, r[j])
      {
        if j > 0 {
          assert r[j] == Insert(x, s[1..], le)[j - 1];
        }
      }
    }
  }

  /** Inserting into a sorted sequence keeps it sorted. */
  lemma {:induction false} InsertSorted<T(!new)>(x: T, s: seq<T>, le: (T, T) -> bool)
    requires TotalPreorder(le)
    requires SortedBy(s, le)
    ensures SortedBy(Insert(x, s, le), le)
  {
    if |s| == 0 {
    } else if le(x, s[0]) {
      forall j | 0 <= j < |s|
        ensures le(x, s[j])
      {
        if j > 0 {
          assert le(s[0], s[j]);
        }
      }
      SortedCons(x, s, le);
    } else {
      var tail := s[1..];
      InsertSorted(x, tail, le);
      assert le(s[0], x);
      assert forall j :: 0 <= j < |tail| ==> le(s[0], tail[j]) by {
        forall j | 0 <= j < |tail|
          ensures le(s[0], tail[j])
        {
          assert tail[j] == s[j + 1];
        }
      }
      InsertBelow(s[0], x, tail, le);
      SortedCons(s[0], Insert(x, tail, le), le);
    }
  }

  /** Sorts `s` by inserting each element, from the last to the first, into
      the already sorted remainder. */
  function InsertionSort<T(==,!new)>(s: seq<T>, le: (T, T) -> bool): (r: seq<T>)
    requires TotalPreorder(le)
    ensures SortedBy(r, le)
    ensures multiset(r) == multiset(s)
  {
    if |s| == 0 then []
    else
      assert s == [s[0]] + s[1..];
      var rest := InsertionSort(s[1..], le);
      InsertSorted(s[0], rest, le);
      Insert(s[0], rest, le)
  }

  /** `p` picks elements that are all equivalent under `le`. */
  ghost predicate WithinOneClass<T(!new)>(p: T -> bool, le: (T, T) -> bool)
  {
    forall a, b :: p(a) && p(b) ==> le(a, b)
  }

  /** Inserting `x` keeps it before every later element equivalent to it. */
  lemma {:induction false} InsertStable<T(!new)>(x: T, s: seq<T>, le: (T, T) -> bool, p: T -> bool)
    requires WithinOneClass(p, le)
    ensures Filter(Insert(x, s, le), p) == Filter([x] + s, p)
  {
    if |s| == 0 || le(x, s[0]) {
    } else {
      var rest := Insert(x, s[1..], le);
      InsertStable(x, s[1..], le, p);
      assert Insert(x, s, le) == [s[0]] + rest;
      assert ([s[0]] + rest)[1..] == rest;
      assert ([x] + s)[1..] == s;
      assert ([x] + s[1..])[1..] == s[1..];
      if p(x) {
        assert !p(s[0]);
      }
    }
  }

  /** Stability: among the elements of one equivalence class, the sorted
      sequence keeps the input order. */
  lemma {:induction false} InsertionSortStable<T(!new)>(s: seq<T>, le: (T, T) -> bool, p: T -> bool)
    requires TotalPreorder(le)
    requires WithinOneClass(p, le)
    ensures Filter(InsertionSort(s, le), p) == Filter(s, p)
  {
    if |s| > 0 {
      var sorted := InsertionSort(s[1..], le);
      InsertionSortStable(s[1..], le, p);
      InsertStable(s[0], sorted, le, p);
      assert ([s[0]] + sorted)[1..] == sorted;
    }
  }
}

=== FILE: stats_scraper.dfy ===
/** The statistics step (scrapers/stats_scraper.py): turns the first rows of
    each batter's game log into game records, attaches them to the batter,
    and ranks the batters by moving average. Page loads and clicks are not
    modelled: a game log is given as the rows already read from the page. */
module StatsScraper {
  import opened Options
  import opened Seqs
  import opened Sorting
  import opened Text
  import Batters
  import BattersGames

  type Batter = Batters.Batter
  type BattersGame = BattersGames.BattersGame

  /** How many of the most recent games are read per batter. */
  const GamesAmount := 10

  /** One row of a game log: the `csk` attribute of the date cell and the
      texts of the home/away, opponent, H and AB cells. */
  datatype GameRow = GameRow(dateCsk: string, homeAway: string, opponentId: string, hitsText: string, atBatsText: string)

  /** The batters of the last `get_stats` call. Each scraper owns its own list. */
  datatype StatsScraper = StatsScraper(batters: seq<Batter>)

  function NewStatsScraper(): (s: StatsScraper)
    ensures |s.batters| == 0
  {
    StatsScraper([])
  }

  // ---------------------------------------------------------------------
  // One row
  // ---------------------------------------------------------------------

  /** `_get_game_rows(table, 10)`: the game log's first ten rows, all of
      them when there are fewer. */
  function RecentRows(rows: seq<GameRow>): (r: seq<GameRow>)
    ensures r <= rows
    ensures |r| == Min(GamesAmount, |rows|)
  {
    PrefixSlice(rows, GamesAmount)
  }

  /** `_get_date`: the `csk` value up to its first `.`. */
  function GameDate(csk: string): (date: string)
    ensures '.' !in date
    ensures date <= csk
    ensures '.' !in csk ==> date == csk
    ensures '.' in csk ==> csk[|date|] == '.'
  {
    FirstField(csk, '.')
  }

  /** `_get_opponent`: the home/away marker directly followed by the
      opponent's id. */
  function Opponent(homeAway: string, opponentId: string): (r: string)
    ensures |r| == |homeAway| + |opponentId|
    ensures r[..|homeAway|] == homeAway && r[|homeAway|..] == opponentId
  {
    homeAway + opponentId
  }

  /** The body of the row loop of `get_stats`: one game record from one row.
      `None` where `int()` on the H or AB cell raises. */
  function RowToGame(row: GameRow): (g: Option<BattersGame>)
    ensures g.Some? <==> IsIntLiteral(row.hitsText) && IsIntLiteral(row.atBatsText)
    ensures g.Some? ==> g.value.date == GameDate(row.dateCsk)
    ensures g.Some? ==> g.value.teamPlayed == Opponent(row.homeAway, row.opponentId)
    ensures g.Some? ==> Some(g.value.hits) == ParseInt(row.hitsText)
    ensures g.Some? ==> Some(g.value.atBats) == ParseInt(row.atBatsText)
  {
    var hits := ParseInt(row.hitsText);
    var atBats := ParseInt(row.atBatsText);
    if hits.None? || atBats.None? then None
    else Some(BattersGames.BattersGame(GameDate(row.dateCsk), Opponent(row.homeAway, row.opponentId), hits.value, atBats.value))
  }

  /** Nothing checks the counts: a row with more hits than at-bats, or with a
      negative count, still yields a game with exactly those numbers. */
  lemma RowsAreNotValidated(csk: string, homeAway: string, opponentId: string)
    ensures RowToGame(GameRow(csk, homeAway, opponentId, "3", "1"))
      == Some(BattersGames.BattersGame(GameDate(csk), homeAway + opponentId, 3, 1))
    ensures RowToGame(GameRow(csk, homeAway, opponentId, "-2", "0"))
      == Some(BattersGames.BattersGame(GameDate(csk), homeAway + opponentId, -2, 0))
  {
    assert "3"[..0] == "" && "1"[..0] == "" && "2"[..0] == "";
    assert "-2"[1..] == "2";
  }

  /** The row loop of `get_stats`: one game per row, in row order; `None` as
      soon as one row cannot be read. */
  function BuildGames(rows: seq<GameRow>): (r: Option<seq<BattersGame>>)
    ensures r.Some? <==> forall i :: 0 <= i < |rows| ==> RowToGame(rows[i]).Some?
    ensures r.Some? ==> |r.value| == |rows|
    ensures r.Some? ==> forall i :: 0 <= i < |rows| ==> Some(r.value[i]) == RowToGame(rows[i])
  {
    if |rows| == 0 then Some([])
    else
      var first := RowToGame(rows[0]);
      var rest := BuildGames(rows[1..]);
      assert forall i :: 1 <= i < |rows| ==> rows[i] == rows[1..][i - 1];
      if first.None? || rest.None? then None
      else Some([first.value] + rest.value)
  }

  /** One pass of the batter loop of `get_stats`: the batter with the games
      of the first `GamesAmount` rows of their own game log, found by id;
      `None` when one of those rows cannot be read. */
  function BatterWithStats(b: Batter, gameLog: string -> seq<GameRow>): (r: Option<Batter>)
    ensures var rows := RecentRows(gameLog(b.id));
      r.Some? <==> forall i :: 0 <= i < |rows| ==> RowToGame(rows[i]).Some?
    ensures var rows := RecentRows(gameLog(b.id));
      r.Some? ==> |r.value.games| == |rows| && forall i :: 0 <= i < |rows| ==> Some(r.value.games[i]) == RowToGame(rows[i])
    ensures r.Some? ==> r.value == Batters.AddGames(b, r.value.games)
    ensures r.Some? ==> |r.value.games| <= GamesAmount
  {
    var games := BuildGames(RecentRows(gameLog(Batters.UrlInfo(b).0)));
    if games.None? then None else Some(Batters.AddGames(b, games.value))
  }

  // ---------------------------------------------------------------------
  // Ranking
  // ---------------------------------------------------------------------

  /** The key order of `sort(key=moving_average, reverse=True)`: `a` may come
      before `b` when its average is not lower. */
  predicate RanksBefore(a: Batter, b: Batter)
  {
    a.movingAverage >= b.movingAverage
  }

  lemma RanksBeforeIsTotalPreorder()
    ensures TotalPreorder(RanksBefore)
  {
  }

  /** The batters sorted by moving average, highest first; a permutation of
      the input. */
  function Rank(batters: seq<Batter>): (r: seq<Batter>)
    ensures forall i, j :: 0 <= i < j < |r| ==> r[i].movingAverage >= r[j].movingAverage
    ensures multiset(r) == multiset(batters)
  {
    RanksBeforeIsTotalPreorder();
    var r := InsertionSort(batters, RanksBefore);
    assert SortedBy(r, RanksBefore);
    r
  }

  function HasAverage(m: int): Batter -> bool
  {
    (b: Batter) => b.movingAverage == m
  }

  /** The sort is stable: batters with the same average keep their input order. */
  lemma RankStable(batters: seq<Batter>, m: int)
    ensures Filter(Rank(batters), HasAverage(m)) == Filter(batters, HasAverage(m))
  {
    RanksBeforeIsTotalPreorder();
    assert WithinOneClass(HasAverage(m), RanksBefore);
    InsertionSortStable(batters, RanksBefore, HasAverage(m));
  }

  // ---------------------------------------------------------------------
  // get_stats
  // ---------------------------------------------------------------------

  /** Every batter's game log can be read. */
  predicate AllReadable(batters: seq<Batter>, gameLog: string -> seq<GameRow>)
  {
    forall i :: 0 <= i < |batters| ==> BatterWithStats(batters[i], gameLog).Some?
  }

  /** Every batter with the games of their game log, in input order. */
  function WithStats(batters: seq<Batter>, gameLog: string -> seq<GameRow>): (r: seq<Batter>)
    requires AllReadable(batters, gameLog)
    ensures |r| == |batters|
    ensures forall i :: 0 <= i < |batters| ==> Some(r[i]) == BatterWithStats(batters[i], gameLog)
  {
    seq(|batters|, i requires 0 <= i < |batters| => BatterWithStats(batters[i], gameLog).value)
  }

  /** The loop of `get_stats`: every batter with their games, in input
      order, or `None` at the first batter whose game log cannot be read. */
  method AttachStats(batters: seq<Batter>, gameLog: string -> seq<GameRow>) returns (result: Option<seq<Batter>>)
    ensures result.Some? <==> AllReadable(batters, gameLog)
    ensures result.Some? ==> result.value == WithStats(batters, gameLog)
  {
    result := MapAll(batters, (b: Batter) => BatterWithStats(b, gameLog));
    if result.Some? {
      assert result.value == WithStats(batters, gameLog);
    }
  }

  /** `get_stats`: attaches to every batter the games of their game log, then
      sorts the batters by moving average, highest first, and returns the
      scraper's own (sorted) list. `gameLog` gives the rows of a batter's game
      log page by player id. `None` when some row cannot be read, in which case
      the scraper keeps its previous list. */
  method GetStats(s: StatsScraper, batters: seq<Batter>, gameLog: string -> seq<GameRow>)
    returns (r: StatsScraper, result: Option<seq<Batter>>)
    ensures result.Some? <==> AllReadable(batters, gameLog)
    ensures result.None? ==> r == s
    ensures result.Some? ==> result.value == r.batters
    ensures result.Some? ==> result.value == Rank(WithStats(batters, gameLog))
  {
    var updated := AttachStats(batters, gameLog);
    if updated.None? {
      return s, None;
    }
    var ranked := Rank(updated.value);
    r := StatsScraper(ranked);
    result := Some(ranked);
  }
}

=== FILE: team.dfy ===
/** A team and the batters selected for it (components/team.py). */
module Teams {
  import opened Options
  import opened Dicts
  import Batters

  type Batter = Batters.Batter

  /** Each team owns its own batter sequence. */
  datatype Team = Team(teamCode: string, name: string, primaryColor: string, secondaryColor: string, batters: seq<Batter>)

  /** `Team.__init__`: the four attributes as given and no batters yet. */
  function NewTeam(teamCode: string, name: string, primaryColor: string, secondaryColor: string): (t: Team)
    ensures Attributes(t) == (teamCode, name, primaryColor, secondaryColor)
    ensures t.batters == []
  {
    Team(teamCode, name, primaryColor, secondaryColor, [])
  }

  /** `Team.get_attributes`: code, name and the two colours, in that order. */
  function Attributes(t: Team): (a: (string, string, string, string))
    ensures a.0 == t.teamCode && a.1 == t.name && a.2 == t.primaryColor && a.3 == t.secondaryColor
  {
    (t.teamCode, t.name, t.primaryColor, t.secondaryColor)
  }

  /** `Team.add_players`: the batter list is replaced wholesale, so
      `get_batters` afterwards returns exactly `batters`; the attributes are
      untouched. */
  function AddPlayers(t: Team, batters: seq<Batter>): (r: Team)
    ensures r.batters == batters
    ensures Attributes(r) == Attributes(t)
  {
    t.(batters := batters)
  }

  /** Players added earlier are forgotten by the next `add_players`. */
  lemma AddPlayersReplaces(t: Team, earlier: seq<Batter>, batters: seq<Batter>)
    ensures AddPlayers(AddPlayers(t, earlier), batters) == AddPlayers(t, batters)
  {
  }

  const TeamKeys: seq<Key> := [TeamCodeKey, NameKey, PrimaryColorKey, SecondaryColorKey, BattersKey]

  lemma TeamKeysDistinct()
    ensures DistinctKeys(TeamKeys)
  {
  }

  /** The keys of `Team.to_dict` as written there, in order. */
  lemma TeamKeyTexts()
    ensures KeyTexts(TeamKeys) == ["team_code", "name", "primary_color", "secondary_color", "batters"]
  {
  }

  /** `Team.to_dict`: five keys in a fixed order; the batters serialised one
      by one, in order. */
  function ToDict(t: Team): (v: Value)
    ensures v.Dict? && Keys(v.fields) == TeamKeys
    ensures Get(v.fields, TeamCodeKey) == Some(Str(t.teamCode))
    ensures Get(v.fields, NameKey) == Some(Str(t.name))
    ensures Get(v.fields, PrimaryColorKey) == Some(Str(t.primaryColor))
    ensures Get(v.fields, SecondaryColorKey) == Some(Str(t.secondaryColor))
    ensures Get(v.fields, BattersKey) == Some(List(EncodeList(t.batters, Batters.ToDict)))
  {
    var values := [
      Str(t.teamCode),
      Str(t.name),
      Str(t.primaryColor),
      Str(t.secondaryColor),
      List(EncodeList(t.batters, Batters.ToDict))
    ];
    TeamKeysDistinct();
    ZipGet(TeamKeys, values, 0);
    ZipGet(TeamKeys, values, 1);
    ZipGet(TeamKeys, values, 2);
    ZipGet(TeamKeys, values, 3);
    ZipGet(TeamKeys, values, 4);
    Dict(Zip(TeamKeys, values))
  }

  /** Serialising the batters and reading them back gives the same batters. */
  lemma BattersListRoundTrip(batters: seq<Batter>)
    ensures DecodeList(EncodeList(batters, Batters.ToDict), Batters.FromDict) == Some(batters)
  {
    forall b ensures Batters.FromDict(Batters.ToDict(b)) == Some(b) {
      Batters.RoundTrip(b);
    }
    DecodeEncodeList(batters, Batters.ToDict, Batters.FromDict);
  }

  /** Reads a team back from its dict form by key. */
  function FromDict(v: Value): Option<Team>
  {
    if !v.Dict? then None
    else
      var f := v.fields;
      var code, name, c1, c2 := GetStr(f, TeamCodeKey), GetStr(f, NameKey), GetStr(f, PrimaryColorKey), GetStr(f, SecondaryColorKey);
      var items := Get(f, BattersKey);
      if code.None? || name.None? || c1.None? || c2.None? || items.None? || !items.value.List? then None
      else
        var batters := DecodeList(items.value.items, Batters.FromDict);
        if batters.None? then None
        else Some(Team(code.value, name.value, c1.value, c2.value, batters.value))
  }

  /** Serialising a team and reading it back reproduces the team and all of
      its batters. */
  lemma RoundTrip(t: Team)
    ensures FromDict(ToDict(t)) == Some(t)
  {
    var f := ToDict(t).fields;
    assert GetStr(f, TeamCodeKey) == Some(t.teamCode) && GetStr(f, NameKey) == Some(t.name);
    assert GetStr(f, PrimaryColorKey) == Some(t.primaryColor) && GetStr(f, SecondaryColorKey) == Some(t.secondaryColor);
    BattersListRoundTrip(t.batters);
  }
}

=== FILE: teams_scraper.dfy ===
/** The roster step (scrapers/teams_scraper.py): picks today's teams out of
    the team directory and takes the first rows of each team's batting table
    as new batters. Page loads and DOM reads are not modelled: a roster is
    given as the rows already read from the team page. */
module TeamsScraper {
  import opened Options
  import opened Seqs
  import opened Text
  import opened Dicts
  import Batters

  type Batter = Batters.Batter
  type TeamEntry = Batters.TeamEntry

  /** One row of a team's batting table: the `data-append-csv` attribute of
      its player cell and the text of the link inside it. */
  datatype PlayerRow = PlayerRow(dataAppendCsv: string, linkText: string)

  /** The batters accumulated so far. Each scraper owns its own sequence. */
  datatype TeamsScraper = TeamsScraper(batters: seq<Batter>)

  /** A new scraper starts with no batters. */
  function NewTeamsScraper(): (s: TeamsScraper)
    ensures |s.batters| == 0
  {
    TeamsScraper([])
  }

  // ---------------------------------------------------------------------
  // Player ids
  // ---------------------------------------------------------------------

  /** `_clean_id`: the part of the id after its last `/`. */
  function CleanId(id: string): (r: string)
    ensures '/' !in r
    ensures |r| <= |id| && id[|id| - |r|..] == r
    ensures '/' !in id ==> r == id
    ensures '/' in id ==> id[|id| - |r| - 1] == '/'
  {
    LastField(id, '/')
  }

  /** Cleaning an already cleaned id changes nothing. */
  lemma CleanIdIdempotent(id: string)
    ensures CleanId(CleanId(id)) == CleanId(id)
  {
  }

  /** Whatever path precedes it, the id is the text after the last '/'. */
  lemma CleanIdLastSegment(path: string, name: string)
    requires '/' !in name
    ensures CleanId(path + "/" + name) == name
  {
    var id := path + "/" + name;
    var r := CleanId(id);
    assert id[|path|] == '/';
    var k := |id| - |r| - 1;
    assert 0 <= k && id[k] == '/';
    assert k <= |path| by {
      assert forall j :: |path| < j < |id| ==> id[j] == name[j - |path| - 1];
    }
    assert k >= |path| by {
      assert forall j :: k < j < |id| ==> id[j] == r[j - k - 1];
    }
  }

  /** `_get_player_name` followed by the `Batter` constructor: the cleaned
      id and the link text, the team's four fields, no games yet. */
  function PlayerFromRow(row: PlayerRow, team: TeamEntry): (b: Batter)
    ensures b.id == CleanId(row.dataAppendCsv) && b.name == row.linkText
    ensures b.teamCode == team.teamCode && b.teamName == team.teamName
    ensures b.primaryColor == team.primaryColor && b.secondaryColor == team.secondaryColor
    ensures b.games == [] && b.movingAverage == 0
  {
    Batters.NewBatter(CleanId(row.dataAppendCsv), row.linkText, team)
  }

  // ---------------------------------------------------------------------
  // Which teams play today
  // ---------------------------------------------------------------------

  /** Some name in `teamsPlaying` occurs inside `teamName`. */
  predicate IsPlaying(teamName: string, teamsPlaying: seq<string>)
  {
    exists i :: 0 <= i < |teamsPlaying| && IsSubstring(teamsPlaying[i], teamName)
  }

  /** `_check_if_team_is_playing`: `True` at the first entry found inside the
      name; otherwise the loop ends and the function returns `None`. */
  method CheckIfTeamIsPlaying(teamName: string, teamsPlaying: seq<string>) returns (r: Option<bool>)
    ensures r.Some? <==> IsPlaying(teamName, teamsPlaying)
    ensures r.Some? ==> r.value
  {
    var i := 0;
    while i < |teamsPlaying|
      invariant 0 <= i <= |teamsPlaying|
      invariant forall k :: 0 <= k < i ==> !IsSubstring(teamsPlaying[k], teamName)
    {
      var idx := Find(teamName, teamsPlaying[i]);
      if idx != -1 {
        return Some(true);
      }
      i := i + 1;
    }
    return None;
  }

  /** An empty entry in `teamsPlaying` selects every team. */
  lemma EmptyEntryMatchesAll(teamName: string, teamsPlaying: seq<string>)
    requires "" in teamsPlaying
    ensures IsPlaying(teamName, teamsPlaying)
  {
    EmptyIsSubstring(teamName);
    var i :| 0 <= i < |teamsPlaying| && teamsPlaying[i] == "";
    assert IsSubstring(teamsPlaying[i], teamName);
  }

  /** A listed name found inside a longer directory name selects the team;
      a name containing none of the listed names does not. */
  lemma IsPlayingExample()
    ensures IsPlaying("New York Yankees", ["Yankees"])
    ensures !IsPlaying("Boston Red Sox", ["Yankees"])
  {
    assert OccursAt("Yankees", "New York Yankees", 9);
    assert IsSubstring("Yankees", "New York Yankees");
    assert ["Yankees"][0] == "Yankees";
    var hay := "Boston Red Sox";
    assert 'Y' !in hay;
    forall k | 0 <= k <= |hay| - 7
      ensures !OccursAt("Yankees", hay, k)
    {
      assert hay[k..k + 7][0] == hay[k];
    }
  }

  function PlayingFilter(teamsPlaying: seq<string>): TeamEntry -> bool
  {
    (e: TeamEntry) => IsPlaying(e.teamName, teamsPlaying)
  }

  const EntryKeys: seq<Key> := [TeamCodeKey, TeamNameKey, PrimaryColorKey, SecondaryColorKey]

  lemma EntryKeysDistinct()
    ensures DistinctKeys(EntryKeys)
  {
  }

  /** The keys of the dicts `_get_teams_json` builds, as written there, in order. */
  lemma EntryKeyTexts()
    ensures KeyTexts(EntryKeys) == ["team_code", "team_name", "primary_color", "secondary_color"]
  {
  }

  /** The dict `_get_teams_json` builds for a selected team. */
  function EntryToDict(e: TeamEntry): (v: Value)
    ensures v.Dict? && Keys(v.fields) == EntryKeys
    ensures Get(v.fields, TeamCodeKey) == Some(Str(e.teamCode))
    ensures Get(v.fields, TeamNameKey) == Some(Str(e.teamName))
    ensures Get(v.fields, PrimaryColorKey) == Some(Str(e.primaryColor))
    ensures Get(v.fields, SecondaryColorKey) == Some(Str(e.secondaryColor))
  {
    var values := [
      Str(e.teamCode),
      Str(e.teamName),
      Str(e.primaryColor),
      Str(e.secondaryColor)
    ];
    EntryKeysDistinct();
    ZipGet(EntryKeys, values, 0);
    ZipGet(EntryKeys, values, 1);
    ZipGet(EntryKeys, values, 2);
    ZipGet(EntryKeys, values, 3);
    Dict(Zip(EntryKeys, values))
  }

  /** The dicts `_get_teams_json` returns are the `EntryToDict` forms of the
      kept entries: each has the directory keys and names a team playing today. */
  lemma TeamsJsonDictsArePlaying(allTeams: seq<TeamEntry>, teamsPlaying: seq<string>)
    ensures var dicts := EncodeList(Filter(allTeams, PlayingFilter(teamsPlaying)), EntryToDict);
      forall i :: 0 <= i < |dicts| ==>
        dicts[i].Dict? && Keys(dicts[i].fields) == EntryKeys &&
        (exists e :: e in allTeams && IsPlaying(e.teamName, teamsPlaying) &&
                     Get(dicts[i].fields, TeamNameKey) == Some(Str(e.teamName)))
  {
    var kept := Filter(allTeams, PlayingFilter(teamsPlaying));
    var dicts := EncodeList(kept, EntryToDict);
    forall i | 0 <= i < |dicts|
      ensures dicts[i].Dict? && Keys(dicts[i].fields) == EntryKeys
      ensures exists e :: e in allTeams && IsPlaying(e.teamName, teamsPlaying) &&
                          Get(dicts[i].fields, TeamNameKey) == Some(Str(e.teamName))
    {
      var e := kept[i];
      assert e in kept;
      assert dicts[i] == EntryToDict(e);
      assert e in allTeams && IsPlaying(e.teamName, teamsPlaying);
    }
  }

  /** The filter loop of `_get_teams_json`: keeps exactly the directory
      entries of teams playing today, in directory order. */
  method GetTeamsJson(allTeams: seq<TeamEntry>, teamsPlaying: seq<string>) returns (finalTeams: seq<TeamEntry>)
    ensures finalTeams == Filter(allTeams, PlayingFilter(teamsPlaying))
    ensures forall e :: e in finalTeams <==> e in allTeams && IsPlaying(e.teamName, teamsPlaying)
  {
    finalTeams := [];
    var i := 0;
    while i < |allTeams|
      invariant 0 <= i <= |allTeams|
      invariant finalTeams == Filter(allTeams[..i], PlayingFilter(teamsPlaying))
    {
      var team := allTeams[i];
      var isPlaying := CheckIfTeamIsPlaying(team.teamName, teamsPlaying);
      FilterAppend(allTeams[..i], [team], PlayingFilter(teamsPlaying));
      assert allTeams[..i + 1] == allTeams[..i] + [team];
      if isPlaying.Some? && isPlaying.value {
        finalTeams := finalTeams + [team];
      }
      i := i + 1;
    }
    assert allTeams[..i] == allTeams;
  }

  // ---------------------------------------------------------------------
  // Batters of the selected teams
  // ---------------------------------------------------------------------

  /** One new batter per row, in row order. */
  function RowsToBatters(rows: seq<PlayerRow>, team: TeamEntry): (bs: seq<Batter>)
    ensures |bs| == |rows|
    ensures forall i :: 0 <= i < |rows| ==> bs[i] == PlayerFromRow(rows[i], team)
  {
    seq(|rows|, i requires 0 <= i < |rows| => PlayerFromRow(rows[i], team))
  }

  /** `_add_batters`: one new batter per row, appended in row order after the
      batters already collected, which stay as they were. */
  method AddBatters(s: TeamsScraper, rows: seq<PlayerRow>, team: TeamEntry) returns (r: TeamsScraper)
    ensures r.batters == s.batters + RowsToBatters(rows, team)
  {
    var batters := s.batters;
    var i := 0;
    while i < |rows|
      invariant 0 <= i <= |rows|
      invariant batters == s.batters + RowsToBatters(rows[..i], team)
    {
      assert rows[..i + 1] == rows[..i] + [rows[i]];
      batters := batters + [PlayerFromRow(rows[i], team)];
      i := i + 1;
    }
    assert rows[..i] == rows;
    r := TeamsScraper(batters);
  }

  /** The batters taken from one team's first rows, in row order. */
  function TeamBatters(team: TeamEntry, numBatters: int, roster: string -> seq<PlayerRow>): seq<Batter>
  {
    RowsToBatters(PrefixSlice(roster(team.teamCode), numBatters), team)
  }

  /** The batters taken from each team's rows, team after team. */
  function SelectedBatters(teams: seq<TeamEntry>, numBatters: int, roster: string -> seq<PlayerRow>): seq<Batter>
  {
    if |teams| == 0 then []
    else TeamBatters(teams[0], numBatters, roster) + SelectedBatters(teams[1..], numBatters, roster)
  }

  /** At most `numBatters` batters come from each team, so at most
      `|teams| * numBatters` in all. */
  lemma {:induction false} SelectedBattersCount(teams: seq<TeamEntry>, numBatters: int, roster: string -> seq<PlayerRow>)
    requires numBatters >= 0
    ensures forall i :: 0 <= i < |teams| ==> |TeamBatters(teams[i], numBatters, roster)| <= numBatters
    ensures |SelectedBatters(teams, numBatters, roster)| <= |teams| * numBatters
  {
    if |teams| > 0 {
      SelectedBattersCount(teams[1..], numBatters, roster);
      assert |teams| * numBatters == numBatters + (|teams| - 1) * numBatters;
    }
  }

  /** Every selected batter carries the team fields of one of `teams`. */
  lemma {:induction false} SelectedBattersFromTeams(teams: seq<TeamEntry>, numBatters: int, roster: string -> seq<PlayerRow>)
    ensures forall b :: b in SelectedBatters(teams, numBatters, roster) ==>
      exists e :: e in teams && b.teamName == e.teamName && b.teamCode == e.teamCode
  {
    if |teams| > 0 {
      SelectedBattersFromTeams(teams[1..], numBatters, roster);
      forall b | b in SelectedBatters(teams, numBatters, roster)
        ensures exists e :: e in teams && b.teamName == e.teamName && b.teamCode == e.teamCode
      {
        if b in TeamBatters(teams[0], numBatters, roster) {
          assert teams[0] in teams;
        } else {
          assert b in SelectedBatters(teams[1..], numBatters, roster);
          var e :| e in teams[1..] && b.teamName == e.teamName && b.teamCode == e.teamCode;
          assert e in teams;
        }
      }
    }
  }

  /** Selecting from a suffix of the teams takes the first team's batters,
      then the rest. */
  lemma SelectedBattersStep(teams: seq<TeamEntry>, i: int, numBatters: int, roster: string -> seq<PlayerRow>)
    requires 0 <= i < |teams|
    ensures SelectedBatters(teams[i..], numBatters, roster)
      == TeamBatters(teams[i], numBatters, roster) + SelectedBatters(teams[i + 1..], numBatters, roster)
  {
    assert teams[i..][1..] == teams[i + 1..];
  }

  /** The loop of `get_batters`: for each selected team, in order, adds the
      batters of its first `numBatters` rows. */
  method CollectBatters(s: TeamsScraper, teamDirectory: seq<TeamEntry>, numBatters: int,
                        roster: string -> seq<PlayerRow>)
    returns (r: TeamsScraper)
    ensures r.batters == s.batters + SelectedBatters(teamDirectory, numBatters, roster)
  {
    r := s;
    assert teamDirectory[0..] == teamDirectory;
    var i := 0;
    while i < |teamDirectory|
      invariant 0 <= i <= |teamDirectory|
      invariant r.batters + SelectedBatters(teamDirectory[i..], numBatters, roster)
        == s.batters + SelectedBatters(teamDirectory, numBatters, roster)
    {
      var team := teamDirectory[i];
      var before := r;
      r := AddBatters(r, PrefixSlice(roster(team.teamCode), numBatters), team);
      SelectedBattersStep(teamDirectory, i, numBatters, roster);
      AppendShift(before.batters, TeamBatters(team, numBatters, roster),
                  SelectedBatters(teamDirectory[i + 1..], numBatters, roster));
      i := i + 1;
    }
    SelectedBattersEnd(teamDirectory, numBatters, roster);
  }

  /** Past the last team nothing is left to select. */
  lemma SelectedBattersEnd(teams: seq<TeamEntry>, numBatters: int, roster: string -> seq<PlayerRow>)
    ensures forall b: seq<Batter> :: b + SelectedBatters(teams[|teams|..], numBatters, roster) == b
  {
    assert SelectedBatters(teams[|teams|..], numBatters, roster) == [];
    forall b: seq<Batter> ensures b + SelectedBatters(teams[|teams|..], numBatters, roster) == b {
      assert b + [] == b;
    }
  }

  /** `get_batters`: the batters of every team playing today, in directory
      order, appended to those the scraper already holds; the result is the
      scraper's own list. `roster` gives the batting-table rows of a team
      page by team code. */
  method GetBatters(s: TeamsScraper, numBatters: int, teamsPlaying: seq<string>,
                    directory: seq<TeamEntry>, roster: string -> seq<PlayerRow>)
    returns (r: TeamsScraper, batters: seq<Batter>)
    ensures batters == r.batters
    ensures batters == s.batters + SelectedBatters(Filter(directory, PlayingFilter(teamsPlaying)), numBatters, roster)
  {
    var teamDirectory := GetTeamsJson(directory, teamsPlaying);
    r := CollectBatters(s, teamDirectory, numBatters, roster);
    batters := r.batters;
  }

  /** Every batter `get_batters` adds belongs to a team playing today. */
  lemma GetBattersOnlyPlayingTeams(numBatters: int, teamsPlaying: seq<string>,
                                   directory: seq<TeamEntry>, roster: string -> seq<PlayerRow>)
    ensures forall b :: b in SelectedBatters(Filter(directory, PlayingFilter(teamsPlaying)), numBatters, roster) ==>
      IsPlaying(b.teamName, teamsPlaying)
  {
    var teams := Filter(directory, PlayingFilter(teamsPlaying));
    SelectedBattersFromTeams(teams, numBatters, roster);
    forall b | b in SelectedBatters(teams, numBatters, roster)
      ensures IsPlaying(b.teamName, teamsPlaying)
    {
      var e :| e in teams && b.teamName == e.teamName && b.teamCode == e.teamCode;
      assert PlayingFilter(teamsPlaying)(e);
    }
  }
}

=== FILE: text.dfy ===
/** The Python string operations the scrapers rely on: `str.split` with a
    one-character separator, `str.find`, `int()` on a table cell, and the
    code-point ordering `list.sort` uses on strings. */
module Text {
  import opened Options

  // ---------------------------------------------------------------------
  // str.split(sep)
  // ---------------------------------------------------------------------

  /** Rejoins the pieces with `sep` between neighbours (Python's `sep.join`). */
  function Join(parts: seq<string>, sep: char): string
    requires |parts| >= 1
  {
    if |parts| == 1 then parts[0] else parts[0] + [sep] + Join(parts[1..], sep)
  }

  /** Python's `s.split(sep)`: the maximal separator-free pieces of `s`. */
  function Split(s: string, sep: char): (parts: seq<string>)
    ensures |parts| >= 1
    ensures forall i :: 0 <= i < |parts| ==> sep !in parts[i]
    ensures Join(parts, sep) == s
  {
    if |s| == 0 then [""]
    else
      var rest := Split(s[1..], sep);
      if s[0] == sep then
        assert ([""] + rest)[1..] == rest;
        [""] + rest
      else
        var parts := [[s[0]] + rest[0]] + rest[1..];
        assert parts[1..] == rest[1..];
        parts
  }

  /** The pieces are determined by the string: anything separator-free that
      joins back to `s` is `Split(s, sep)`. */
  lemma {:induction false} SplitUnique(s: string, sep: char, parts: seq<string>)
    requires |parts| >= 1
    requires forall i :: 0 <= i < |parts| ==> sep !in parts[i]
    requires Join(parts, sep) == s
    ensures parts == Split(s, sep)
    decreases |s|
  {
    if |s| == 0 {
    } else if |parts| == 1 {
      assert sep !in s;
      SplitUnique(s[1..], sep, [s[1..]]);
    } else if |parts[0]| == 0 {
      assert s[0] == sep;
      assert s[1..] == Join(parts[1..], sep);
      SplitUnique(s[1..], sep, parts[1..]);
      assert parts == [""] + parts[1..];
    } else {
      var p0 := parts[0][1..];
      var shorter := [p0] + parts[1..];
      assert shorter[1..] == parts[1..];
      assert s[0] == parts[0][0];
      assert s[1..] == Join(shorter, sep);
      assert forall i :: 0 <= i < |shorter| ==> sep !in shorter[i];
      SplitUnique(s[1..], sep, shorter);
      assert parts[0] == [parts[0][0]] + p0;
    }
  }

  /** Splitting the last piece off the join. */
  lemma {:induction false} JoinLast(parts: seq<string>, sep: char)
    requires |parts| >= 2
    ensures Join(parts, sep) == Join(parts[..|parts| - 1], sep) + [sep] + parts[|parts| - 1]
  {
    if |parts| > 2 {
      JoinLast(parts[1..], sep);
      assert parts[1..][..|parts| - 2] == parts[..|parts| - 1][1..];
    }
  }

  /** Python's `s.split(sep)[0]`: the text before the first separator. */
  function FirstField(s: string, sep: char): (r: string)
    ensures sep !in r
    ensures r <= s
    ensures sep in s <==> |r| < |s|
    ensures |r| < |s| ==> s[|r|] == sep
  {
    var parts := Split(s, sep);
    if |parts| == 1 then
      parts[0]
    else
      assert s == parts[0] + [sep] + Join(parts[1..], sep);
      assert s[|parts[0]|] == sep;
      parts[0]
  }

  /** Python's `s.split(sep)[-1]`: the text after the last separator. */
  function LastField(s: string, sep: char): (r: string)
    ensures sep !in r
    ensures |r| <= |s| && s[|s| - |r|..] == r
    ensures sep in s <==> |r| < |s|
    ensures |r| < |s| ==> s[|s| - |r| - 1] == sep
  {
    var parts := Split(s, sep);
    var r := parts[|parts| - 1];
    if |parts| == 1 then
      r
    else
      JoinLast(parts, sep);
      var front := Join(parts[..|parts| - 1], sep);
      assert s == front + [sep] + r;
      assert s[|s| - |r|..] == r;
      assert s[|s| - |r| - 1] == sep;
      r
  }

  // ---------------------------------------------------------------------
  // str.find(needle) != -1
  // ---------------------------------------------------------------------

  /** `needle` occurs in `hay` starting at index `k`. */
  predicate OccursAt(needle: string, hay: string, k: int)
  {
    0 <= k && k + |needle| <= |hay| && hay[k..k + |needle|] == needle
  }

  predicate IsSubstring(needle: string, hay: string)
  {
    exists k :: 0 <= k <= |hay| - |needle| && OccursAt(needle, hay, k)
  }

  /** Python's `hay.find(needle)`: the first index where `needle` occurs, or -1. */
  method Find(hay: string, needle: string) returns (idx: int)
    ensures idx == -1 <==> !IsSubstring(needle, hay)
    ensures idx != -1 ==> OccursAt(needle, hay, idx)
    ensures forall k :: 0 <= k < idx ==> !OccursAt(needle, hay, k)
  {
    var i := 0;
    while i + |needle| <= |hay|
      invariant 0 <= i
      invariant forall k :: 0 <= k < i ==> !OccursAt(needle, hay, k)
      decreases |hay| - i
    {
      if hay[i..i + |needle|] == needle {
        assert OccursAt(needle, hay, i);
        return i;
      }
      i := i + 1;
    }
    return -1;
  }

  /** The empty string occurs in every string (Python: `s.find("") == 0`). */
  lemma EmptyIsSubstring(hay: string)
    ensures IsSubstring("", hay)
  {
    assert OccursAt("", hay, 0);
  }

  // ---------------------------------------------------------------------
  // String ordering used by list.sort()
  // ---------------------------------------------------------------------

  /** Python's `a <= b` on strings: lexicographic by code point, a proper
      prefix first. */
  predicate LexLe(a: string, b: string)
  {
    |a| == 0 || (|b| > 0 && (a[0] < b[0] || (a[0] == b[0] && LexLe(a[1..], b[1..]))))
  }

  lemma {:induction false} LexLeTotal(a: string, b: string)
    ensures LexLe(a, b) || LexLe(b, a)
  {
    if |a| > 0 && |b| > 0 && a[0] == b[0] {
      LexLeTotal(a[1..], b[1..]);
    }
  }

  lemma {:induction false} LexLeTransitive(a: string, b: string, c: string)
    requires LexLe(a, b) && LexLe(b, c)
    ensures LexLe(a, c)
  {
    if |a| > 0 && |b| > 0 && |c| > 0 && a[0] == b[0] && b[0] == c[0] {
      LexLeTransitive(a[1..], b[1..], c[1..]);
    }
  }

  lemma {:induction false} LexLeAntisymmetric(a: string, b: string)
    requires LexLe(a, b) && LexLe(b, a)
    ensures a == b
  {
    if |a| > 0 && |b| > 0 {
      LexLeAntisymmetric(a[1..], b[1..]);
      assert a == [a[0]] + a[1..];
      assert b == [b[0]] + b[1..];
    }
  }

  // ---------------------------------------------------------------------
  // int(cell_text)
  // ---------------------------------------------------------------------

  predicate IsDigit(c: char) { '0' <= c <= '9' }

  predicate AllDigits(s: string) { forall i :: 0 <= i < |s| ==> IsDigit(s[i]) }

  /** The number a run of decimal digits denotes. */
  function DigitsValue(ds: string): nat
    requires AllDigits(ds)
  {
    if |ds| == 0 then 0
    else DigitsValue(ds[..|ds| - 1]) * 10 + (ds[|ds| - 1] as int - '0' as int)
  }

  /** An optional sign followed by at least one decimal digit. */
  predicate IsIntLiteral(s: string)
  {
    if |s| > 0 && (s[0] == '-' || s[0] == '+') then |s| > 1 && AllDigits(s[1..])
    else |s| > 0 && AllDigits(s)
  }

  /** Python's `int(s)` on a decimal literal; `None` where Python raises `ValueError`. */
  function ParseInt(s: string): (r: Option<int>)
    ensures r.Some? <==> IsIntLiteral(s)
    ensures r.Some? && s[0] == '-' ==> r.value <= 0
    ensures r.Some? && s[0] != '-' ==> r.value >= 0
  {
    if |s| > 0 && s[0] == '-' then
      if |s| > 1 && AllDigits(s[1..]) then Some(-(DigitsValue(s[1..]) as int)) else None
    else if |s| > 0 && s[0] == '+' then
      if |s| > 1 && AllDigits(s[1..]) then Some(DigitsValue(s[1..])) else None
    else if |s| > 0 && AllDigits(s) then Some(DigitsValue(s))
    else None
  }

  function DigitChar(d: nat): char
    requires d < 10
  {
    ('0' as int + d) as char
  }

  /** The decimal digits of `n`, most significant first, without leading zeros. */
  function NatToString(n: nat): (s: string)
    ensures |s| >= 1 && AllDigits(s)
  {
    if n < 10 then [DigitChar(n)] else NatToString(n / 10) + [DigitChar(n % 10)]
  }

  /** Python's `str(n)`. */
  function IntToString(n: int): string
  {
    if n < 0 then "-" + NatToString(-n) else NatToString(n)
  }

  lemma {:induction false} DigitsRoundTrip(n: nat)
    ensures DigitsValue(NatToString(n)) == n
  {
    var s := NatToString(n);
    if n >= 10 {
      DigitsRoundTrip(n / 10);
      assert s[..|s| - 1] == NatToString(n / 10);
    }
  }

  /** A leading zero does not change the number a digit run denotes. */
  lemma {:induction false} DigitsValueLeadingZero(ds: string)
    requires AllDigits(ds)
    ensures AllDigits("0" + ds) && DigitsValue("0" + ds) == DigitsValue(ds)
  {
    var z := "0" + ds;
    assert AllDigits(z) by {
      forall i | 0 <= i < |z| ensures IsDigit(z[i]) {
        if i > 0 { assert z[i] == ds[i - 1]; }
      }
    }
    if |ds| > 0 {
      var front := ds[..|ds| - 1];
      DigitsValueLeadingZero(front);
      assert z[..|z| - 1] == "0" + front;
      assert z[|z| - 1] == ds[|ds| - 1];
    }
  }

  /** `int("+" + d)` is `int(d)` for a digit run `d`. */
  lemma ParseIntPlusSign(ds: string)
    requires |ds| > 0 && AllDigits(ds)
    ensures ParseInt("+" + ds).Some? && ParseInt("+" + ds) == ParseInt(ds)
  {
    assert ("+" + ds)[1..] == ds;
  }

  /** `int("-" + d)` is `-int(d)` for a digit run `d`. */
  lemma ParseIntMinusSign(ds: string)
    requires |ds| > 0 && AllDigits(ds)
    ensures ParseInt("-" + ds).Some? && ParseInt(ds).Some?
    ensures ParseInt("-" + ds).value == -ParseInt(ds).value
  {
    assert ("-" + ds)[1..] == ds;
  }

  /** `int("0" + d)` is `int(d)` for a digit run `d`: leading zeros are
      ignored. With the two sign lemmas and `ParseIntRoundTrip` this fixes
      the value of every literal. */
  lemma ParseIntLeadingZero(ds: string)
    requires |ds| > 0 && AllDigits(ds)
    ensures ParseInt("0" + ds).Some? && ParseInt("0" + ds) == ParseInt(ds)
  {
    DigitsValueLeadingZero(ds);
    assert ("0" + ds)[0] == '0';
    assert ds[0] != '-' && ds[0] != '+' by { assert IsDigit(ds[0]); }
  }

  /** Reading back a printed integer gives the integer. */
  lemma ParseIntRoundTrip(n: int)
    ensures ParseInt(IntToString(n)) == Some(n)
  {
    var s := IntToString(n);
    if n < 0 {
      var digits := NatToString(-n);
      DigitsRoundTrip(-n);
      assert s == "-" + digits;
      assert s[0] == '-' && s[1..] == digits;
    } else {
      DigitsRoundTrip(n);
      assert IsDigit(s[0]);
    }
  }
}
